=== FILE: README.md ===
# Nemesis crawl frontier, modelled in Dafny

Nemesis is an asynchronous crawler for `.onion` sites. It keeps a FIFO queue of
URLs and two Bloom filters: `visited` holds fetched URLs and `queue_filter` holds
links already queued by a merge. It crawls in batches whose size and
inter-batch delay come from a CPU/memory back-off formula. It persists the queue
and a visited log as line files between runs, and it stops at a time limit.

This project models the deterministic part of that program and proves its
properties:

- `Resources`: the back-off formula of `check_system_resources`. The two samples
  are `real` inputs, and Python's `int()` is written out as truncation toward zero.
- `Fetch`: the per-URL classification done by `crawl`, `is_skippable`, the
  `.onion` href filter of `extract_onion_links`, and the final
  `keyword in combined_text` test of `check_keyword`. The network outcome
  and what the HTML parser finds are inputs (`FetchOutcome`, `Page`), and
  `urljoin` is a function parameter.
- `Storage`: the queue file and the visited log, each modelled by its text.
  `save_queue` is a loop that writes line by line. The module also holds the
  raw-page file name and the keyword-match line.
- `Scheduler`: `main`'s startup and its `while` loop, as a class `Crawler`. Its
  fields are the queue, the two filters (as exact sets), and the texts of the
  files it writes. What one iteration observes is supplied as a `Tick`: the
  clock in microseconds, the two samples, and the fetch outcome of each task
  in the batch. Python's set iteration order in the merge loop is a
  nondeterministic choice.
- `Text` and `Wrappers`: helpers. `Text` holds `strip`, `lower`, `in`,
  `startswith`, `endswith` and `str(int)`; `Wrappers` holds `Option`.

The crawler's invariant is `Scheduler.Crawler.Valid`:

- the queue filter is exactly the list of links that merges appended, with no
  duplicates and none visited at startup;
- the visited set is the startup set plus the URLs logged during the run, each
  logged once;
- the visited log is its startup text followed by one line per logged URL.

Every method of `Crawler` keeps this invariant. It implies the "no false
negatives" guarantee of the filters, and it implies that no link is appended
twice by a merge during a run.

Four facts about the code shape the model:

- the queue file and the visited log hold one bare URL per line, with no numbering;
- no URL is checked against an `.onion` pattern or a length bound before it is queued;
- the seed URL is queued only at startup, and only when the loaded queue is empty;
- the loop ends when the queue is empty or once the deadline has passed; an interrupt exits the program outright.

The model also follows a consequence of the code: the URLs of the loaded queue
and the seed are not added to `queue_filter` at startup (nemesis.py:253-259), and
a URL is marked visited only after its own links are merged. So a page whose URL
came from the loaded queue or the seed, is not yet in the visited log, and has not
been queued again by an earlier merge, puts its own URL back on the queue when it
links to itself (`Scheduler.SelfLinkIsRequeued`). A URL that a merge has queued,
whether it was first found by a merge or also sat in the loaded queue, is in
`queue_filter`, so its self-link is not queued again.

## Model

| member | source | states |
|---|---|---|
| Resources.CheckSystemResources | nemesis.py:189-199 | The result is exactly (8, 3) iff memory ≤ 70 and CPU ≤ 80. Otherwise the batch size is in [2, 8) and the delay exceeds 3. |
| Resources.Trunc | nemesis.py:195 | `int()` on a float truncates toward zero, on both signs. |
| Resources.OverloadPositive | nemesis.py:193-194 | In the overload branch the overload fraction is strictly positive. |
| Resources.BackoffMonotone | nemesis.py:194-196 | A larger overload never gives a larger batch or a shorter delay, and the batch never drops below 2. |
| Resources.ScheduleMonotone | nemesis.py:189-199 | A host at least as loaded on both samples never gets a larger batch or a shorter delay, across the baseline/overload boundary too. |
| Resources.PercentSamplesKeepBatchAtLeastFive | nemesis.py:193-196 | For samples in [0, 100]: overload ≤ 0.3, `int()` agrees with the floor, and the batch size is between 5 and 8. |
| Fetch.IsSkippable | nemesis.py:133-135 | A URL is skippable iff its lower-cased form ends with one of the eleven extensions. |
| Fetch.UpperCasePdfIsSkipped | nemesis.py:133-135 | A URL ending in `.PDF` is skippable. |
| Fetch.ExtractOnionLinks | nemesis.py:232-243 | There are at most as many links as hrefs. |
| Fetch.ExtractOnionLinksExactly | nemesis.py:232-243 | A link is in the result iff some href contains `.onion` and the link is that href, or the href joined to the page URL when it does not start with `http`. |
| Fetch.KeywordInOneSourceMatches | nemesis.py:157-184 | A non-empty page and keyword match when the stripped, lower-cased keyword occurs in any one lower-cased text source. |
| Fetch.KeywordIgnoresCase | nemesis.py:183 | Two keywords with the same lower-cased form give the same answer. |
| Fetch.BlankKeywordMatchesEveryPage | nemesis.py:159-184 | A keyword made only of whitespace strips to "" and so matches every non-empty page. |
| Fetch.Crawl | nemesis.py:201-230 | The result carries the URL. Its status is "success" iff the URL is not skippable and the response is 200 with `text/html` in its Content-Type. On success the result holds the page, its links are exactly `ExtractOnionLinks` of the page's hrefs against the URL, and the keyword hit is `keyword and check_keyword(...)`. An exception gives `failed_with_error_<message>`. Every status other than success has no HTML, no links and no keyword hit. |
| Fetch.StatusTag | nemesis.py:222 | The tag is `failed_with_status_` followed by the decimal code. |
| Fetch.ErrorTag | nemesis.py:227 | The tag is `failed_with_error_` followed by the exception message. |
| Fetch.ErrorTagInjective | nemesis.py:227 | Two messages with the same tag are the same message. |
| Fetch.CheckKeyword | nemesis.py:157-187 | An empty page or an empty keyword never matches. The other properties are in KeywordInOneSourceMatches, KeywordIgnoresCase and BlankKeywordMatchesEveryPage. |
| Fetch.SkippedIgnoresNetwork | nemesis.py:203-206 | A skippable URL is "skipped", and its result does not depend on the network outcome. |
| Fetch.FailedStatusIsTagged | nemesis.py:221-225 | Any other response gives `failed_with_status_<code>` and no links, and the tag determines the code. |
| Fetch.NotFoundExample | nemesis.py:221-225 | A 404 gives `failed_with_status_404` and no links. |
| Fetch.StatusTagsDistinct | nemesis.py:201-230 | Status tags, error tags, "success" and "skipped" never coincide. |
| Storage.SaveQueue | nemesis.py:113-118 | The loop writes each URL followed by a newline, in order. The file ends at a line boundary. |
| Storage.LineFileAppend | nemesis.py:117-118 | Writing one more URL extends the file by exactly that URL's line. |
| Storage.QueueRoundTrip | nemesis.py:106-118 | Loading a saved queue of entries gives the same queue back. An entry is non-empty, has one line and no surrounding whitespace. |
| Storage.SplitHasNoLineBreak | nemesis.py:110 | No line read from a file holds a line break. |
| Storage.CleanGivesEntries | nemesis.py:111 | Every line kept on load is an entry: blank lines are dropped, the rest are stripped. |
| Storage.LoadedQueueSurvivesRestart | nemesis.py:106-118 | Whatever a queue file holds, what loads from it is made of entries, and saving and reloading it gives the same queue back. |
| Storage.EmptyAndMissingFilesAgree | nemesis.py:106-111 | A missing file and an empty file load the same empty queue and the same empty visited set. |
| Storage.LoadLinesAppend | nemesis.py:124-131 | Lines appended to a log that ends at a line boundary load after the old lines, unchanged. |
| Storage.LoadQueue | nemesis.py:106-111 | A missing file loads as the empty queue, and every loaded URL is an entry. QueueRoundTrip and LoadedQueueSurvivesRestart relate it to `save_queue`. |
| Storage.LoadVisited | nemesis.py:120-125 | A missing log loads as the empty set. VisitedRoundTrip and SaveVisited relate it to `save_visited`. |
| Storage.SaveVisited | nemesis.py:127-131 | The log keeps its old text and ends at a line boundary. Appending an entry to a log that ends at a line boundary adds exactly that URL to the loaded visited set. |
| Storage.VisitedRoundTrip | nemesis.py:120-131 | A log extended with the lines of some entries loads to the old visited set plus those entries. |
| Storage.KeepFilenameChars | nemesis.py:140 | A character occurs in the result iff it occurs in the URL and is an ASCII letter or digit, `_`, `-` or `.`. The result is never longer than the URL. |
| Storage.KeepFilenameCharsIdentity | nemesis.py:140 | Text made only of kept characters is left unchanged. |
| Storage.KeepFilenameCharsAppend | nemesis.py:140 | Filtering keeps order: the filtered concatenation is the concatenation of the filtered parts. |
| Storage.SanitizeFilename | nemesis.py:140 | The name has only allowed characters and at most 100 of them. It is a prefix of the filtered URL, and the whole filtered URL when shorter than 100. |
| Storage.SanitizeIdempotent | nemesis.py:140 | Sanitising a sanitised name leaves it unchanged. |
| Storage.RawPagePath | nemesis.py:140-142 | The path is `data/raw_pages/`, then exactly the sanitised URL, then `.html`, and it has no further `/`. |
| Storage.DroppedCharacterCollides | nemesis.py:140-142 | Two URLs that differ only by a dropped character get the same raw-page path. |
| Storage.KeywordLine | nemesis.py:147-155 | The keyword-match line starts with the URL, continues with ` (Keyword: <keyword>)` right after it, and ends with a newline. Its length is exactly that of those three parts. |
| Scheduler.InitialQueue | nemesis.py:257-264 | The start queue is never empty: it is the loaded queue when that is non-empty, and the start URL alone otherwise. |
| Scheduler.CrawlBatch | nemesis.py:272-273 | There is one result per batch URL, in batch order, each about its own URL. |
| Scheduler.CrawlBatchUrls | nemesis.py:272-274 | The results of a batch are about exactly the batch's URLs. |
| Scheduler.SelfLinkIsRequeued | nemesis.py:277-283 | A page that links to itself requeues its own URL when that URL is in neither filter. |
| Scheduler.KeywordLines | nemesis.py:215-216 | Without a keyword, or when no result matched, nothing is written. |
| Scheduler.KeywordLinesAppend | nemesis.py:215-216 | One more result adds exactly its own line after the lines of the results before it, and adds nothing when it did not match. So each hit is written once and nothing else is written. |
| Scheduler.KeywordLinesRecordEveryHit | nemesis.py:215-216 | Every result that matched the keyword has its `save_keyword_url` line in what the batch writes. |
| Scheduler.MergedInOrderStep | nemesis.py:274-283 | Merging result k after results 0 to k-1 extends the merge order by exactly the piece result k appends. |
| Scheduler.MergedInOrderIsDiscovered | nemesis.py:274-283 | The pieces appended in result order, taken together, are exactly the discovered links that were not in the queue filter. |
| Scheduler.Crawler.constructor | nemesis.py:253-259 | The queue is the loaded queue, or just the start URL when that is empty. The visited set is the loaded log and the queue filter is empty. The deadline is the given minutes in microseconds. |
| Scheduler.Crawler.VisitedLogRestoresVisited | nemesis.py:120-131 | When the startup log ended with a complete line and the URLs logged since are entries, reloading the log gives exactly the in-memory visited set. |
| Scheduler.Crawler.MergeLinks | nemesis.py:277-280 | A link is appended, and added to the queue filter, iff it is in neither filter. Nothing is appended twice, and the rest of the state is unchanged. |
| Scheduler.Crawler.MarkVisited | nemesis.py:281-283 | The URL becomes visited. It is appended to the log, as `save_visited` writes it, iff it was not visited before. |
| Scheduler.Crawler.MergeResults | nemesis.py:274-283 | The appended links are the pieces of the results joined in result order. Piece k is result k's links that were neither visited nor in the queue filter at its turn: the URLs of results 0 to k-1 are visited by then, and their pieces are in the filter. Together they are exactly the discovered links not in the queue filter. Every result URL becomes visited. |
| Scheduler.Crawler.Step | nemesis.py:269-285 | The batch is the first min(c, \|queue\|) entries, with c the batch size the back-off gives for the tick's samples. The results are the batch's crawls in task order. The rest of the queue stays in order ahead of the appended links. Those links are the results' pieces in result order, as MergeResults states, and together they are exactly the links the results discovered that were in neither filter. Every batch URL is visited, keyword lines are added for matching results, and the queue file holds the new queue. |
| Scheduler.Crawler.Iterate | nemesis.py:264-285 | The batch runs iff the tick is within the deadline. Past it, the flag is set and nothing else changes: the queue, the filters, the visited log, the queue file and the keyword file. Otherwise everything Step states holds: the batch and the new queue, the results, the appended links and their order, the visited set, the queue file and the keyword lines. |
| Scheduler.Crawler.RecordedPass | nemesis.py:264-286 | A batch runs iff tick n is within the deadline, and the flag is set otherwise. When a batch runs, the record of the run grows by that batch, the queue it left and the links its merge appended. Otherwise the record, the queue and the queue file are unchanged. |
| Scheduler.Crawler.Run | nemesis.py:264-286 | The loop stops only when the queue is empty, the deadline fired, or the ticks run out. A batch ran for each tick before the last one, and for the last one too unless the flag is set. The tick that set the flag was past the deadline. `RunSoFar` then gives the rest. Every tick that ran a batch was within the deadline. Batch k was taken at tick k from the front of the non-empty queue `queues[k]`. The next queue is what the batch left followed by `appendeds[k]`, which holds exactly the links the batch's results discovered that were neither visited nor in the queue filter at that pass. The queues run from the starting queue to the final one. The visited set grows by exactly the batches' URLs, and the queue filter by exactly the appended links, which are the links merged in order. The keyword file gains each batch's lines in turn. No link is appended twice during the run. After a batch has run the queue file holds the final queue; otherwise it is untouched. |
| Scheduler.RunAppendsDistinct | nemesis.py:277-280 | When the merged links hold no duplicate at the end of a run, the links appended across all its batches hold none either. |
| Scheduler.RunSoFarStep | nemesis.py:264-286 | One more batch, taken from the current queue on the next tick within the deadline and merged as `BatchMerged` states, extends the record by its batch, its queue, its appended links, its URLs and its keyword lines. |
| Scheduler.DispatchedStep | nemesis.py:269-280 | One more batch taken from the front of the current queue and merged against the current visited set and queue filter extends the list of dispatched batches by it. |
| Scheduler.BatchKeywordLinesAppend | nemesis.py:215-216 | One more batch adds exactly its own results' keyword lines after those of the earlier batches. |

## Left out

- Tor connectivity, the SOCKS proxy and the aiohttp session (lines 57-69, 261-262) are network I/O. A fetch is an input `FetchOutcome`.
- `MongoManager` (lines 71-104) is an external database client. Its writes are side effects only.
- BeautifulSoup parsing and `urljoin` are foreign libraries. The hrefs and text sources of a page are inputs, and `urljoin` is a parameter. An exception raised while parsing (lines 185-187 and inside `crawl`) is not modelled.
- psutil sampling (lines 191-192) is host I/O: the samples are parameters. The `check_system_resources` call inside `crawl` (line 208) has no effect on the result and is left out.
- `asyncio.gather` concurrency, `asyncio.sleep`, the SIGINT handler with `sys.exit` (lines 48-55), argparse, tqdm and print logging are left out. The clock is an input.
- Scheduler.Crawler.Step: keyword-match lines are appended during the concurrent crawls, so their order within a batch is not fixed. The model writes them in batch order.
- Scheduler.Crawler.Run: it runs for at most as many iterations as it is given ticks, so a crawl that never ends is cut off when the ticks run out.
- Scheduler.Crawler.MergeLinks: the order in which Python iterates over a set is not modelled. Any order may be chosen, and the contract holds for every order.
- The raw HTML file contents and directory creation are file-system effects. Only the file name is modelled.
- The Bloom filters' false-positive rate is probabilistic. The filters are exact sets, so a false positive that would skip a new link is not modelled.
- Fetch.CheckKeyword, Fetch.IsSkippable and Storage.KeepFilenameChars: `str.lower()` and `str.isalnum()` are modelled for ASCII only. Non-ASCII letters and digits are neither lower-cased nor kept. For example, Python lower-cases U+212A KELVIN SIGN to `k`, so `is_skippable` skips a URL ending in `.m` + U+212A + `v`, but `Fetch.IsSkippable` does not.
- Resources.CheckSystemResources: `REQUEST_DELAY` is the integer 3 in the baseline branch. Here it is the real 3.0.
- Resources.CheckSystemResources: the overload, `8 * (1 - overload)` and `3 * (1 + overload)` are binary floats in Python. Here they are exact reals, so float rounding is not modelled. A product that lands just below an integer in floating point can truncate one lower than the real value does.

=== FILE: fetch.dfy ===
/**
 * The fetch-extract unit: one URL in, one crawl result out. The network
 * response and what the HTML parser finds in the page are inputs
 * (`FetchOutcome`), and `urljoin` is a parameter.
 */
module Fetch {
  import opened Wrappers
  import opened Text

  /** File extensions that are never fetched. */
  const SkipExtensions: seq<string> :=
    [".mp4", ".mp3", ".avi", ".mkv", ".mov", ".jpg", ".png", ".gif", ".zip", ".rar", ".pdf"]

  /** The parts of a fetched page the crawler uses. */
  datatype Page = Page(
    html: string,          // the decoded body
    hrefs: seq<string>,    // the `href` of every anchor that has one, in document order
    texts: seq<string>)    // title, meta contents, element texts and anchor texts, in that order

  /** What one GET through the proxy gave: a response, or an exception with its message. */
  datatype FetchOutcome =
    | Response(status: nat, contentType: string, page: Page)  // contentType is "" when absent
    | Raised(message: string)

  /** What `crawl` hands back to the scheduler, with the status tag it stores. */
  datatype CrawlResult = CrawlResult(
    html: Option<string>,
    url: string,
    status: string,
    links: set<string>,
    keywordHit: bool)

  /** Python's `any(s.endswith(e) for e in exts)`. */
  function EndsWithAny(s: string, exts: seq<string>): (r: bool)
    ensures r <==> exists i :: 0 <= i < |exts| && EndsWith(s, exts[i])
  {
    if exts == [] then false
    else EndsWith(s, exts[0]) || EndsWithAny(s, exts[1..])
  }

  /** `is_skippable`: the lower-cased URL ends in a media or archive extension. */
  function IsSkippable(url: string): (r: bool)
    ensures r <==> exists i :: 0 <= i < |SkipExtensions| && EndsWith(Lower(url), SkipExtensions[i])
  {
    EndsWithAny(Lower(url), SkipExtensions)
  }

  /** An upper-case extension is skipped like its lower-case form. */
  lemma UpperCasePdfIsSkipped(stem: string)
    ensures IsSkippable(stem + ".PDF")
  {
    var u := Lower(stem + ".PDF");
    assert u[|u| - 4..] == ".pdf";
    assert EndsWith(u, SkipExtensions[10]);
  }

  /** The status tag of a response that is not a successful HTML page. */
  function StatusTag(status: nat): (r: string)
    ensures StartsWith(r, "failed_with_status_")
    ensures r[|"failed_with_status_"|..] == NatToDecimal(status)
  {
    var r := "failed_with_status_" + NatToDecimal(status);
    assert r[..|"failed_with_status_"|] == "failed_with_status_";
    r
  }

  /** The status tag of a fetch that raised. */
  function ErrorTag(message: string): (r: string)
    ensures StartsWith(r, "failed_with_error_")
    ensures r[|"failed_with_error_"|..] == message
  {
    var r := "failed_with_error_" + message;
    assert r[..|"failed_with_error_"|] == "failed_with_error_";
    r
  }

  /** Distinct exception messages give distinct tags. */
  lemma ErrorTagInjective(m1: string, m2: string)
    requires ErrorTag(m1) == ErrorTag(m2)
    ensures m1 == m2
  {
    assert m1 == ErrorTag(m1)[|"failed_with_error_"|..];
  }

  /** A response that carries an HTML page: status 200 and `text/html` in the Content-Type. */
  predicate IsHtmlOk(outcome: FetchOutcome) {
    outcome.Response? && outcome.status == 200 && Contains(outcome.contentType, "text/html")
  }

  /** The link kept for an `.onion` href: itself when it starts with `http`, else resolved against the page. */
  function Resolve(baseUrl: string, href: string, join: (string, string) -> string): string {
    if StartsWith(href, "http") then href else join(baseUrl, href)
  }

  /** `l` is what the filter keeps for `href`: the href mentions `.onion` and `l` is its resolved form. */
  predicate KeptAs(href: string, l: string, baseUrl: string, join: (string, string) -> string) {
    Contains(href, ".onion") && l == Resolve(baseUrl, href, join)
  }

  /** `extract_onion_links`: the set of resolved hrefs that mention `.onion`. */
  function ExtractOnionLinks(hrefs: seq<string>, baseUrl: string, join: (string, string) -> string): (r: set<string>)
    ensures |r| <= |hrefs|
  {
    if hrefs == [] then {}
    else
      var n := |hrefs| - 1;
      var rest := ExtractOnionLinks(hrefs[..n], baseUrl, join);
      if Contains(hrefs[n], ".onion") then {Resolve(baseUrl, hrefs[n], join)} + rest else rest
  }

  /** The filter keeps every href that mentions `.onion`, resolved, and no other link. */
  lemma {:induction false} ExtractOnionLinksExactly(hrefs: seq<string>, baseUrl: string,
                                                    join: (string, string) -> string, l: string)
    ensures l in ExtractOnionLinks(hrefs, baseUrl, join) <==>
              exists i :: 0 <= i < |hrefs| && KeptAs(hrefs[i], l, baseUrl, join)
  {
    if hrefs != [] {
      var n := |hrefs| - 1;
      ExtractOnionLinksExactly(hrefs[..n], baseUrl, join, l);
      if l in ExtractOnionLinks(hrefs[..n], baseUrl, join) {
        var i :| 0 <= i < n && KeptAs(hrefs[..n][i], l, baseUrl, join);
        assert hrefs[..n][i] == hrefs[i];
      }
      if exists i :: 0 <= i < |hrefs| && KeptAs(hrefs[i], l, baseUrl, join) {
        var i :| 0 <= i < |hrefs| && KeptAs(hrefs[i], l, baseUrl, join);
        if i < n {
          assert hrefs[..n][i] == hrefs[i];
        }
      }
    }
  }

  /** The strings the keyword is searched in: the non-empty sources, lower-cased. */
  function TextSources(texts: seq<string>): (r: seq<string>)
    ensures forall i :: 0 <= i < |texts| && texts[i] != "" ==> Lower(texts[i]) in r
  {
    if texts == [] then []
    else (if texts[0] == "" then [] else [Lower(texts[0])]) + TextSources(texts[1..])
  }

  /** Python's `" ".join(parts)`. */
  function JoinSpace(parts: seq<string>): (r: string)
    ensures forall p :: p in parts ==> Contains(r, p)
  {
    if parts == [] then ""
    else if |parts| == 1 then
      ContainsParts("", parts[0], "");
      assert "" + parts[0] + "" == parts[0];
      parts[0]
    else
      var rest := JoinSpace(parts[1..]);
      ContainsParts(parts[0], " ", rest);
      forall p | p in parts[1..] ensures Contains(parts[0] + " " + rest, p) {
        ContainsTransitive(parts[0] + " " + rest, rest, p);
      }
      parts[0] + " " + rest
  }

  /**
   * `check_keyword` once the parser has collected the page's texts: false for an
   * empty page or keyword, otherwise whether the lower-cased, stripped keyword
   * occurs in the space-joined, lower-cased texts.
   */
  function CheckKeyword(html: string, texts: seq<string>, keyword: string): (r: bool)
    ensures r ==> html != "" && keyword != ""
  {
    if html == "" || keyword == "" then false
    else Contains(JoinSpace(TextSources(texts)), Strip(Lower(keyword)))
  }

  /** A keyword found (ignoring case) in any one text source makes the page match. */
  lemma KeywordInOneSourceMatches(html: string, texts: seq<string>, keyword: string, i: int)
    requires html != "" && keyword != ""
    requires 0 <= i < |texts| && Contains(Lower(texts[i]), Strip(Lower(keyword)))
    ensures CheckKeyword(html, texts, keyword)
  {
    var k := Strip(Lower(keyword));
    var combined := JoinSpace(TextSources(texts));
    if texts[i] == "" {
      assert |k| == 0;
      ContainsEmpty(combined);
    } else {
      ContainsTransitive(combined, Lower(texts[i]), k);
    }
  }

  /** Only the lower-cased keyword matters: the search ignores its case. */
  lemma KeywordIgnoresCase(html: string, texts: seq<string>, k1: string, k2: string)
    requires Lower(k1) == Lower(k2)
    ensures CheckKeyword(html, texts, k1) == CheckKeyword(html, texts, k2)
  {
    assert |k1| == |Lower(k1)| == |Lower(k2)| == |k2|;
  }

  /** A keyword made only of whitespace strips to "" and so matches every non-empty page. */
  lemma BlankKeywordMatchesEveryPage(html: string, texts: seq<string>, keyword: string)
    requires html != "" && keyword != ""
    requires forall i :: 0 <= i < |keyword| ==> IsSpace(keyword[i])
    ensures CheckKeyword(html, texts, keyword)
  {
    var k := Lower(keyword);
    assert forall i :: 0 <= i < |k| ==> k[i] == keyword[i] by {
      forall i | 0 <= i < |k| ensures k[i] == keyword[i] {
        assert !('A' <= keyword[i] <= 'Z');
      }
    }
    assert Strip(k) == [];
    ContainsEmpty(JoinSpace(TextSources(texts)));
  }

  /**
   * `crawl`: a skippable URL is recorded as skipped; a 200 HTML response yields
   * its `.onion` links (and the keyword test); any other response or an
   * exception yields a failure tag and no links.
   */
  function Crawl(url: string, outcome: FetchOutcome, keyword: Option<string>,
                 join: (string, string) -> string): (r: CrawlResult)
    ensures r.url == url
    ensures r.status == "success" <==> !IsSkippable(url) && IsHtmlOk(outcome)
    ensures r.status != "success" ==> r.links == {} && r.html == None && !r.keywordHit
    ensures r.keywordHit ==> keyword.Some? && keyword.value != ""
    ensures !IsSkippable(url) && IsHtmlOk(outcome) ==>
              && r.html == Some(outcome.page.html)
              && r.links == ExtractOnionLinks(outcome.page.hrefs, url, join)
              && (r.keywordHit <==> keyword.Some? && keyword.value != ""
                                    && CheckKeyword(outcome.page.html, outcome.page.texts, keyword.value))
    ensures !IsSkippable(url) && outcome.Raised? ==> r.status == ErrorTag(outcome.message)
  {
    if IsSkippable(url) then
      CrawlResult(None, url, "skipped", {}, false)
    else
      match outcome
      case Raised(message) =>
        CrawlResult(None, url, ErrorTag(message), {}, false)
      case Response(status, contentType, page) =>
        if IsHtmlOk(outcome) then
          var links := ExtractOnionLinks(page.hrefs, url, join);
          var hit := keyword.Some? && keyword.value != "" && CheckKeyword(page.html, page.texts, keyword.value);
          CrawlResult(Some(page.html), url, "success", links, hit)
        else
          assert StatusTag(status)[..7] == "failed_";
          CrawlResult(None, url, StatusTag(status), {}, false)
  }

  /** A skipped URL is never fetched: its result is the same whatever the network would have said. */
  lemma SkippedIgnoresNetwork(url: string, o1: FetchOutcome, o2: FetchOutcome,
                              keyword: Option<string>, join: (string, string) -> string)
    requires IsSkippable(url)
    ensures Crawl(url, o1, keyword, join) == Crawl(url, o2, keyword, join)
    ensures Crawl(url, o1, keyword, join).status == "skipped"
  {
  }

  /** A non-HTML or non-200 response is tagged with its status code, and the tag gives the code back. */
  lemma FailedStatusIsTagged(url: string, outcome: FetchOutcome, keyword: Option<string>,
                             join: (string, string) -> string)
    requires !IsSkippable(url) && outcome.Response? && !IsHtmlOk(outcome)
    ensures var r := Crawl(url, outcome, keyword, join);
            && r.status == StatusTag(outcome.status)
            && r.links == {}
            && forall code: nat :: StatusTag(code) == r.status ==> code == outcome.status
  {
    forall code: nat | StatusTag(code) == StatusTag(outcome.status)
      ensures code == outcome.status
    {
      var n := |"failed_with_status_"|;
      assert StatusTag(code)[n..] == NatToDecimal(code);
      assert StatusTag(outcome.status)[n..] == NatToDecimal(outcome.status);
      DecimalInjective(code, outcome.status);
    }
  }

  /** A 404 gives `failed_with_status_404` and no links. */
  lemma NotFoundExample(url: string, page: Page, keyword: Option<string>, join: (string, string) -> string)
    requires !IsSkippable(url)
    ensures Crawl(url, Response(404, "text/html", page), keyword, join).status == "failed_with_status_404"
    ensures Crawl(url, Response(404, "text/html", page), keyword, join).links == {}
  {
    assert NatToDecimal(404) == "404";
  }

  /** The four kinds of status tag never collide. */
  lemma StatusTagsDistinct(code: nat, message: string)
    ensures StatusTag(code) != ErrorTag(message)
    ensures StatusTag(code) != "success" && StatusTag(code) != "skipped"
    ensures ErrorTag(message) != "success" && ErrorTag(message) != "skipped"
  {
    assert StatusTag(code)[12] == 's';
    assert ErrorTag(message)[12] == 'e';
  }
}

=== FILE: resources.dfy ===
/**
 * The resource monitor: from a memory and a CPU utilisation sample (percentages)
 * it derives how many URLs the next batch may hold and how long to sleep after it.
 * The samples themselves are inputs; nothing here reads the host.
 */
module Resources {

  const ConcurrentRequests: int := 8
  const MinConcurrentRequests: int := 2
  const RequestDelay: real := 3.0
  const MaxRamUsagePercent: real := 70.0
  const MaxCpuUsagePercent: real := 80.0

  /** The scheduling parameters of one batch: its size and the sleep that follows it (seconds). */
  datatype Schedule = Schedule(concurrency: int, delay: real)

  /** The baseline used when the host is below both ceilings. */
  const Baseline: Schedule := Schedule(ConcurrentRequests, RequestDelay)

  function Max(a: real, b: real): real {
    if a < b then b else a
  }

  /** Python's `int(x)` on a float: truncation toward zero. */
  function Trunc(x: real): (r: int)
    ensures 0.0 <= x ==> 0 <= r && r as real <= x < r as real + 1.0
    ensures x < 0.0 ==> r <= 0 && r as real - 1.0 < x <= r as real
  {
    if 0.0 <= x then x.Floor else -((-x).Floor)
  }

  /** Truncation never reverses the order of its arguments. */
  lemma TruncMonotone(x: real, y: real)
    requires x <= y
    ensures Trunc(x) <= Trunc(y)
  {
  }

  /** The host is above at least one ceiling. */
  predicate Overloaded(mem: real, cpu: real) {
    mem > MaxRamUsagePercent || cpu > MaxCpuUsagePercent
  }

  /** How far the worse of the two samples is above its ceiling, as a fraction. */
  function Overload(mem: real, cpu: real): real {
    Max(mem - MaxRamUsagePercent, cpu - MaxCpuUsagePercent) / 100.0
  }

  /** The batch size for an overload fraction, never below the floor. */
  function DynamicConcurrency(overload: real): int {
    var c := Trunc(ConcurrentRequests as real * (1.0 - overload));
    if c < MinConcurrentRequests then MinConcurrentRequests else c
  }

  /** The inter-batch delay for an overload fraction. */
  function DynamicDelay(overload: real): real {
    RequestDelay * (1.0 + overload)
  }

  /**
   * `check_system_resources`: the baseline when both samples are within their
   * ceilings, and a strictly reduced schedule otherwise.
   */
  function CheckSystemResources(mem: real, cpu: real): (s: Schedule)
    ensures !Overloaded(mem, cpu) <==> s == Baseline
    ensures Overloaded(mem, cpu) ==>
              && MinConcurrentRequests <= s.concurrency < ConcurrentRequests
              && s.delay > RequestDelay
  {
    if Overloaded(mem, cpu) then
      var overload := Overload(mem, cpu);
      Schedule(DynamicConcurrency(overload), DynamicDelay(overload))
    else
      Baseline
  }

  /** An overloaded host has a strictly positive overload fraction. */
  lemma OverloadPositive(mem: real, cpu: real)
    requires Overloaded(mem, cpu)
    ensures Overload(mem, cpu) > 0.0
  {
  }

  /**
   * In the overload branch a larger overload never gives a larger batch or a
   * shorter delay, and the batch never drops below the floor.
   */
  lemma BackoffMonotone(o1: real, o2: real)
    requires o1 <= o2
    ensures DynamicConcurrency(o1) >= DynamicConcurrency(o2) >= MinConcurrentRequests
    ensures DynamicDelay(o1) <= DynamicDelay(o2)
  {
    TruncMonotone(ConcurrentRequests as real * (1.0 - o2), ConcurrentRequests as real * (1.0 - o1));
  }

  /**
   * A host that is at least as loaded on both counts never gets a larger batch
   * or a shorter delay, across the baseline/overload boundary too.
   */
  lemma {:induction false} ScheduleMonotone(mem1: real, cpu1: real, mem2: real, cpu2: real)
    requires mem1 <= mem2 && cpu1 <= cpu2
    ensures CheckSystemResources(mem1, cpu1).concurrency >= CheckSystemResources(mem2, cpu2).concurrency
    ensures CheckSystemResources(mem1, cpu1).delay <= CheckSystemResources(mem2, cpu2).delay
  {
    if Overloaded(mem1, cpu1) {
      assert Overload(mem1, cpu1) <= Overload(mem2, cpu2);
      BackoffMonotone(Overload(mem1, cpu1), Overload(mem2, cpu2));
    }
  }

  /**
   * For samples that are real percentages (between 0 and 100), the overload
   * fraction is at most 0.3, `int()` agrees with the floor, and the batch size
   * never falls below 5: the floor of 2 is never what decides it.
   */
  lemma PercentSamplesKeepBatchAtLeastFive(mem: real, cpu: real)
    requires 0.0 <= mem <= 100.0 && 0.0 <= cpu <= 100.0
    ensures Overload(mem, cpu) <= 0.3
    ensures Trunc(ConcurrentRequests as real * (1.0 - Overload(mem, cpu)))
         == (ConcurrentRequests as real * (1.0 - Overload(mem, cpu))).Floor
    ensures 5 <= CheckSystemResources(mem, cpu).concurrency <= ConcurrentRequests
  {
  }
}

=== FILE: scheduler.dfy ===
/**
 * The scheduler loop of `main`: startup (load the queue, warm the visited
 * filter, inject the seed), then batches until the queue is empty or the
 * deadline has passed. The two scalable Bloom filters are exact sets here, so
 * "no false negatives" holds by construction. The world (clock, resource
 * samples, network) is an input supplied once per iteration.
 */
module Scheduler {
  import opened Wrappers
  import opened Text
  import Resources
  import Fetch
  import Storage

  /** The URL queued when the loaded queue is empty. */
  const StartUrl: string := "http://jaz45aabn5vkemy4jkg4mi4syheisqn2wn2n4fsuitpccdackjwxplad.onion/"

  /** The queue the crawl starts from: the loaded queue, or the start URL alone when nothing was loaded. */
  function InitialQueue(loaded: seq<string>): (q: seq<string>)
    ensures q != []
    ensures loaded != [] ==> q == loaded
    ensures loaded == [] ==> q == [StartUrl]
  {
    if loaded == [] then [StartUrl] else loaded
  }

  /** `timedelta(minutes=m)` in microseconds, the resolution of `datetime`. */
  function MinutesToMicros(minutes: int): int {
    minutes * 60_000_000
  }

  /**
   * What one iteration observes: the clock, the memory and CPU samples, and
   * the outcome of the fetch made by the i-th task of its batch.
   */
  datatype Tick = Tick(now: int, mem: real, cpu: real, fetch: nat -> Fetch.FetchOutcome)

  function Min(a: int, b: int): int {
    if a < b then a else b
  }

  predicate NoDuplicates(s: seq<string>) {
    forall i, j :: 0 <= i < j < |s| ==> s[i] != s[j]
  }

  lemma NoDuplicatesAppend(s: seq<string>, x: string)
    requires NoDuplicates(s) && x !in Elems(s)
    ensures NoDuplicates(s + [x])
  {
  }

  lemma NoDuplicatesSuffix(a: seq<string>, b: seq<string>)
    requires NoDuplicates(a + b)
    ensures NoDuplicates(b)
  {
    forall i, j | 0 <= i < j < |b| ensures b[i] != b[j] {
      assert b[i] == (a + b)[|a| + i] && b[j] == (a + b)[|a| + j];
    }
  }

  /** The results of a batch, in task order, as the concurrent `gather` returns them. */
  function CrawlBatch(batch: seq<string>, fetch: nat -> Fetch.FetchOutcome, keyword: Option<string>,
                      join: (string, string) -> string): (rs: seq<Fetch.CrawlResult>)
    ensures |rs| == |batch|
    ensures forall i :: 0 <= i < |rs| ==> rs[i].url == batch[i]
  {
    var rs := seq(|batch|, i requires 0 <= i < |batch| => Fetch.Crawl(batch[i], fetch(i), keyword, join));
    assert forall i :: 0 <= i < |rs| ==> rs[i] == Fetch.Crawl(batch[i], fetch(i), keyword, join);
    rs
  }

  /** The URLs the results are about. */
  ghost function ResultUrls(rs: seq<Fetch.CrawlResult>): set<string> {
    set i | 0 <= i < |rs| :: rs[i].url
  }

  /** A batch's results are about exactly the batch's URLs. */
  lemma CrawlBatchUrls(batch: seq<string>, fetch: nat -> Fetch.FetchOutcome, keyword: Option<string>,
                       join: (string, string) -> string)
    ensures ResultUrls(CrawlBatch(batch, fetch, keyword, join)) == Elems(batch)
  {
    var rs := CrawlBatch(batch, fetch, keyword, join);
    forall u | u in Elems(batch) ensures u in ResultUrls(rs) {
      var i :| 0 <= i < |batch| && batch[i] == u;
      assert rs[i].url == u;
    }
  }

  /**
   * The links that merging `rs` in order can admit: each result's links that
   * are not visited at its turn, where a result's URL becomes visited only
   * after its own links have been merged.
   */
  ghost function Discovered(rs: seq<Fetch.CrawlResult>, visited: set<string>): set<string>
    decreases |rs|
  {
    if rs == [] then {}
    else
      var n := |rs| - 1;
      Discovered(rs[..n], visited) + (rs[n].links - visited - ResultUrls(rs[..n]))
  }

  /** The pieces joined end to end, in order. */
  function Concat(pieces: seq<seq<string>>): seq<string> {
    if pieces == [] then [] else Concat(pieces[..|pieces| - 1]) + pieces[|pieces| - 1]
  }

  /**
   * `pieces[k]` is what merging result k appended: its links that were neither
   * visited nor in the queue filter at its turn. At that turn the URLs of the
   * earlier results are visited and the earlier pieces are in the filter.
   */
  ghost predicate MergedInOrder(rs: seq<Fetch.CrawlResult>, pieces: seq<seq<string>>,
                                visited: set<string>, queueFilter: set<string>)
    decreases |rs|
  {
    && |pieces| == |rs|
    && (rs != [] ==>
          var n := |rs| - 1;
          && MergedInOrder(rs[..n], pieces[..n], visited, queueFilter)
          && Elems(pieces[n]) == rs[n].links - (visited + ResultUrls(rs[..n]))
                                             - (queueFilter + Elems(Concat(pieces[..n]))))
  }

  lemma ConcatAppend(pieces: seq<seq<string>>, piece: seq<string>)
    ensures Concat(pieces + [piece]) == Concat(pieces) + piece
    ensures Elems(Concat(pieces + [piece])) == Elems(Concat(pieces)) + Elems(piece)
  {
    assert (pieces + [piece])[..|pieces|] == pieces;
    ElemsAppend(Concat(pieces), piece);
  }

  /** Each of the first `n` ticks came no later than the deadline. */
  predicate WithinDeadline(ticks: seq<Tick>, n: nat, startTime: int, timeLimit: int)
    requires n <= |ticks|
  {
    forall k :: 0 <= k < n ==> ticks[k].now - startTime <= timeLimit
  }

  lemma WithinDeadlineStep(ticks: seq<Tick>, n: nat, startTime: int, timeLimit: int)
    requires n < |ticks| && WithinDeadline(ticks, n, startTime, timeLimit)
    requires ticks[n].now - startTime <= timeLimit
    ensures WithinDeadline(ticks, n + 1, startTime, timeLimit)
  {
  }

  /**
   * Batch `batch` was taken at `tick` from the front of the non-empty queue
   * `before`: the first `concurrency` entries the back-off allows.
   */
  predicate TakenFrom(tick: Tick, before: seq<string>, batch: seq<string>) {
    && before != []
    && batch == before[..Min(Resources.CheckSystemResources(tick.mem, tick.cpu).concurrency, |before|)]
  }

  /**
   * One pass of the loop as seen from the queue: `batch` was taken from the
   * front of `before` at `tick`, and the queue became what the batch left
   * followed by `appended`, which holds exactly the links the batch's results
   * discovered that were neither visited (`visited`, at the start of the pass)
   * nor in the queue filter (`filter`).
   */
  ghost predicate BatchMerged(tick: Tick, before: seq<string>, batch: seq<string>, appended: seq<string>,
                              after: seq<string>, visited: set<string>, filter: set<string>,
                              keyword: Option<string>, join: (string, string) -> string)
  {
    && TakenFrom(tick, before, batch)
    && after == before[|batch|..] + appended
    && Elems(appended) == Discovered(CrawlBatch(batch, tick.fetch, keyword, join), visited) - filter
  }

  /**
   * `batches[k]` was taken at tick k from the queue `queues[k]`, which became
   * `queues[k + 1]` with `appendeds[k]` appended. At that pass the visited set
   * was the starting one plus the earlier batches, and the queue filter the
   * starting one plus the earlier appended links.
   */
  ghost predicate Dispatched(ticks: seq<Tick>, batches: seq<seq<string>>, queues: seq<seq<string>>,
                             appendeds: seq<seq<string>>, visited0: set<string>, filter0: set<string>,
                             keyword: Option<string>, join: (string, string) -> string)
    requires |batches| <= |ticks|
  {
    && |queues| == |batches| + 1 && |appendeds| == |batches|
    && forall k :: 0 <= k < |batches| ==>
         BatchMerged(ticks[k], queues[k], batches[k], appendeds[k], queues[k + 1],
                     visited0 + Elems(Concat(batches[..k])), filter0 + Elems(Concat(appendeds[..k])), keyword, join)
  }

  lemma DispatchedStep(ticks: seq<Tick>, batches: seq<seq<string>>, queues: seq<seq<string>>,
                       appendeds: seq<seq<string>>, visited0: set<string>, filter0: set<string>,
                       keyword: Option<string>, join: (string, string) -> string,
                       batch: seq<string>, appended: seq<string>, after: seq<string>)
    requires |batches| < |ticks| && Dispatched(ticks, batches, queues, appendeds, visited0, filter0, keyword, join)
    requires BatchMerged(ticks[|batches|], queues[|batches|], batch, appended, after,
                         visited0 + Elems(Concat(batches)), filter0 + Elems(Concat(appendeds)), keyword, join)
    ensures Dispatched(ticks, batches + [batch], queues + [after], appendeds + [appended], visited0, filter0, keyword, join)
    ensures (queues + [after])[0] == queues[0] && (queues + [after])[|batches| + 1] == after
  {
    var bs, qs, ps := batches + [batch], queues + [after], appendeds + [appended];
    forall k | 0 <= k < |bs|
      ensures BatchMerged(ticks[k], qs[k], bs[k], ps[k], qs[k + 1],
                          visited0 + Elems(Concat(bs[..k])), filter0 + Elems(Concat(ps[..k])), keyword, join)
    {
      assert bs[..k] == batches[..k] && ps[..k] == appendeds[..k];
      if k < |batches| {
        assert bs[k] == batches[k] && qs[k] == queues[k] && qs[k + 1] == queues[k + 1] && ps[k] == appendeds[k];
      } else {
        assert batches[..k] == batches && appendeds[..k] == appendeds;
      }
    }
  }

  /** What `save_keyword_url` writes over the batches: each batch's lines in turn. */
  function BatchKeywordLines(ticks: seq<Tick>, batches: seq<seq<string>>, keyword: Option<string>,
                             join: (string, string) -> string): string
    requires |batches| <= |ticks|
    decreases |batches|
  {
    if batches == [] then ""
    else
      var n := |batches| - 1;
      BatchKeywordLines(ticks, batches[..n], keyword, join)
      + KeywordLines(CrawlBatch(batches[n], ticks[n].fetch, keyword, join), keyword)
  }

  /** One more batch adds exactly its own keyword lines, after those of the batches before it. */
  lemma BatchKeywordLinesAppend(ticks: seq<Tick>, batches: seq<seq<string>>, batch: seq<string>,
                                keyword: Option<string>, join: (string, string) -> string)
    requires |batches| < |ticks|
    ensures BatchKeywordLines(ticks, batches + [batch], keyword, join)
            == BatchKeywordLines(ticks, batches, keyword, join)
               + KeywordLines(CrawlBatch(batch, ticks[|batches|].fetch, keyword, join), keyword)
  {
    assert (batches + [batch])[..|batches|] == batches;
  }

  /** The parts of the crawler's state that the loop changes, as one value. */
  datatype Snapshot = Snapshot(queue: seq<string>, visited: set<string>, queueFilter: set<string>,
                               merged: seq<string>, keywordMatches: string)

  /**
   * The record of a run from `start` to `now`:
   *  - every batch ran on a tick within the deadline;
   *  - batch k was taken at tick k from the front of `queues[k]`, and the queue
   *    became what it left followed by `appendeds[k]`, the links the batch
   *    discovered that were neither visited nor in the queue filter at that pass
   *    (`Dispatched`); the queues run from `start.queue` to `now.queue`;
   *  - the visited set gained exactly the batches' URLs;
   *  - the queue filter gained exactly the appended links, which are also the
   *    links merged during the run, in order;
   *  - the keyword file gained each batch's lines in turn.
   */
  ghost predicate RunSoFar(ticks: seq<Tick>, batches: seq<seq<string>>, queues: seq<seq<string>>,
                           appendeds: seq<seq<string>>, startTime: int, timeLimit: int,
                           start: Snapshot, now: Snapshot, keyword: Option<string>, join: (string, string) -> string)
  {
    && |batches| <= |ticks|
    && WithinDeadline(ticks, |batches|, startTime, timeLimit)
    && Dispatched(ticks, batches, queues, appendeds, start.visited, start.queueFilter, keyword, join)
    && queues[0] == start.queue && queues[|batches|] == now.queue
    && now.visited == start.visited + Elems(Concat(batches))
    && now.queueFilter == start.queueFilter + Elems(Concat(appendeds))
    && now.merged == start.merged + Concat(appendeds)
    && now.keywordMatches == start.keywordMatches + BatchKeywordLines(ticks, batches, keyword, join)
  }

  /** Running one more batch, on the next tick within the deadline, extends the record by that batch. */
  lemma RunSoFarStep(ticks: seq<Tick>, batches: seq<seq<string>>, queues: seq<seq<string>>,
                     appendeds: seq<seq<string>>, startTime: int, timeLimit: int,
                     start: Snapshot, now: Snapshot, keyword: Option<string>, join: (string, string) -> string,
                     batch: seq<string>, appended: seq<string>, next: Snapshot)
    requires RunSoFar(ticks, batches, queues, appendeds, startTime, timeLimit, start, now, keyword, join)
    requires |batches| < |ticks| && ticks[|batches|].now - startTime <= timeLimit
    requires BatchMerged(ticks[|batches|], now.queue, batch, appended, next.queue, now.visited, now.queueFilter,
                         keyword, join)
    requires next.visited == now.visited + Elems(batch)
    requires next.queueFilter == now.queueFilter + Elems(appended) && next.merged == now.merged + appended
    requires next.keywordMatches
             == now.keywordMatches + KeywordLines(CrawlBatch(batch, ticks[|batches|].fetch, keyword, join), keyword)
    ensures RunSoFar(ticks, batches + [batch], queues + [next.queue], appendeds + [appended], startTime, timeLimit,
                     start, next, keyword, join)
  {
    WithinDeadlineStep(ticks, |batches|, startTime, timeLimit);
    DispatchedStep(ticks, batches, queues, appendeds, start.visited, start.queueFilter, keyword, join,
                   batch, appended, next.queue);
    BatchKeywordLinesAppend(ticks, batches, batch, keyword, join);
    AppendAssociative(start.keywordMatches, BatchKeywordLines(ticks, batches, keyword, join),
                      KeywordLines(CrawlBatch(batch, ticks[|batches|].fetch, keyword, join), keyword));
    AppendAssociative(start.merged, Concat(appendeds), appended);
    ConcatAppend(batches, batch);
    ConcatAppend(appendeds, appended);
  }

  /** When the merged links hold no duplicate at the end of a run, no link was appended twice during it. */
  lemma RunAppendsDistinct(ticks: seq<Tick>, batches: seq<seq<string>>, queues: seq<seq<string>>,
                           appendeds: seq<seq<string>>, startTime: int, timeLimit: int,
                           start: Snapshot, now: Snapshot, keyword: Option<string>, join: (string, string) -> string)
    requires RunSoFar(ticks, batches, queues, appendeds, startTime, timeLimit, start, now, keyword, join)
    requires NoDuplicates(now.merged)
    ensures NoDuplicates(Concat(appendeds))
  {
    NoDuplicatesSuffix(start.merged, Concat(appendeds));
  }

  /**
   * Stated on plain values so that a caller's proof need not find it among
   * the facts of a whole loop body.
   */
  lemma AppendAssociative<T>(a: seq<T>, b: seq<T>, c: seq<T>)
    ensures a + (b + c) == (a + b) + c
  {
  }

  /** After the first `k` results: `appended` is their pieces joined, and the pieces follow the merge order. */
  ghost predicate MergedSoFar(rs: seq<Fetch.CrawlResult>, k: nat, pieces: seq<seq<string>>, appended: seq<string>,
                              visited: set<string>, queueFilter: set<string>)
  {
    k <= |rs| && appended == Concat(pieces) && MergedInOrder(rs[..k], pieces, visited, queueFilter)
  }

  /** Merging result `k` after the results before it extends the order by that result's piece. */
  lemma MergedInOrderStep(rs: seq<Fetch.CrawlResult>, k: nat, pieces: seq<seq<string>>, appended: seq<string>,
                          piece: seq<string>, visited: set<string>, queueFilter: set<string>)
    requires k < |rs| && MergedSoFar(rs, k, pieces, appended, visited, queueFilter)
    requires Elems(piece) == rs[k].links - (visited + ResultUrls(rs[..k])) - (queueFilter + Elems(appended))
    ensures MergedSoFar(rs, k + 1, pieces + [piece], appended + piece, visited, queueFilter)
    ensures ResultUrls(rs[..k + 1]) == ResultUrls(rs[..k]) + {rs[k].url}
  {
    assert rs[..k + 1][..k] == rs[..k];
    assert (pieces + [piece])[..|pieces|] == pieces;
  }

  /** Merging in order appends exactly the discovered links that were not already in the queue filter. */
  lemma {:induction false} MergedInOrderIsDiscovered(rs: seq<Fetch.CrawlResult>, pieces: seq<seq<string>>,
                                                     visited: set<string>, queueFilter: set<string>)
    requires MergedInOrder(rs, pieces, visited, queueFilter)
    ensures Elems(Concat(pieces)) == Discovered(rs, visited) - queueFilter
  {
    if rs != [] {
      var n := |rs| - 1;
      MergedInOrderIsDiscovered(rs[..n], pieces[..n], visited, queueFilter);
      ElemsAppend(Concat(pieces[..n]), pieces[n]);
    }
  }

  /**
   * A page that links to itself puts its own URL back on the queue when the URL
   * was neither visited nor in the queue filter: the URL is marked visited only
   * after its links are merged, and URLs of the loaded queue and the seed are
   * not added to the filter at startup, only when a merge queues them.
   */
  lemma SelfLinkIsRequeued(r: Fetch.CrawlResult, visited: set<string>, queueFilter: set<string>)
    requires r.url in r.links && r.url !in visited && r.url !in queueFilter
    ensures r.url in Discovered([r], visited) - queueFilter
  {
    assert [r][..0] == [];
    assert ResultUrls([]) == {};
  }

  /** The lines `save_keyword_url` appends for the results that matched the keyword, in order. */
  function KeywordLines(rs: seq<Fetch.CrawlResult>, keyword: Option<string>): (r: string)
    ensures keyword == None ==> r == ""
    ensures (forall i :: 0 <= i < |rs| ==> !rs[i].keywordHit) ==> r == ""
  {
    if rs == [] then ""
    else
      KeywordLineOf(rs[0], keyword) + KeywordLines(rs[1..], keyword)
  }

  /** Every result that matched the keyword has its line among the keyword lines. */
  lemma {:induction false} KeywordLinesRecordEveryHit(rs: seq<Fetch.CrawlResult>, keyword: string, i: nat)
    requires i < |rs| && rs[i].keywordHit
    ensures Contains(KeywordLines(rs, Some(keyword)), Storage.KeywordLine(rs[i].url, keyword))
  {
    var head := if rs[0].keywordHit then Storage.KeywordLine(rs[0].url, keyword) else "";
    var rest := KeywordLines(rs[1..], Some(keyword));
    assert KeywordLines(rs, Some(keyword)) == head + rest + "";
    ContainsParts(head, rest, "");
    if i > 0 {
      assert rs[1..][i - 1] == rs[i];
      KeywordLinesRecordEveryHit(rs[1..], keyword, i - 1);
      ContainsTransitive(head + rest + "", rest, Storage.KeywordLine(rs[i].url, keyword));
    }
  }

  /** The line one result contributes: its `save_keyword_url` line when it matched a given keyword, else nothing. */
  function KeywordLineOf(r: Fetch.CrawlResult, keyword: Option<string>): string {
    if r.keywordHit && keyword.Some? then Storage.KeywordLine(r.url, keyword.value) else ""
  }

  /**
   * One more result adds exactly its own line, after the lines of the results
   * before it: with `KeywordLines([], k) == ""` this fixes the whole text, so
   * each hit is written once and nothing else is written.
   */
  lemma {:induction false} KeywordLinesAppend(rs: seq<Fetch.CrawlResult>, x: Fetch.CrawlResult, keyword: Option<string>)
    ensures KeywordLines(rs + [x], keyword) == KeywordLines(rs, keyword) + KeywordLineOf(x, keyword)
  {
    if rs == [] {
      assert [x][1..] == [];
      assert rs + [x] == [x];
    } else {
      assert (rs + [x])[0] == rs[0] && (rs + [x])[1..] == rs[1..] + [x];
      KeywordLinesAppend(rs[1..], x, keyword);
    }
  }

  /** A missing visited log loads like an empty one. */
  lemma WarmStart(visitedText: Option<string>)
    ensures Storage.LoadVisited(visitedText) == Storage.LoadVisited(Some(visitedText.GetOr("")))
  {
    if visitedText.None? {
      assert Some(visitedText.GetOr("")) == Some("");
      Storage.EmptyAndMissingFilesAgree();
    } else {
      assert Some(visitedText.GetOr("")) == visitedText;
    }
  }


  /** Before any merge or log write, the run's records are empty. */
  lemma EmptyRun(visited: set<string>, log: string)
    ensures NoDuplicates([]) && Elems<string>([]) == {} && visited + Elems<string>([]) == visited
    ensures log + Storage.LineFile([]) == log
  {
    assert Storage.LineFile([]) == "";
    assert log + "" == log;
  }

  class Crawler {
    /** The frontier, in FIFO order. */
    var queue: seq<string>
    /** The `visited` filter. */
    var visited: set<string>
    /** The `queue_filter` filter: links already appended by a merge. */
    var queueFilter: set<string>
    /** The text of `data/queue.txt`, `None` while it does not exist. */
    var queueFile: Option<string>
    /** The text of `data/visited_links.txt` ("" while it does not exist). */
    var visitedLog: string
    /** The text appended to `data/keyword_matches.txt` during this run. */
    var keywordMatches: string
    /** `time_limit_reached`. */
    var timeLimitReached: bool

    const startTime: int
    const timeLimit: int
    const keyword: Option<string>
    const join: (string, string) -> string

    /** The visited set as loaded at startup, and the visited log as it was then. */
    ghost const initialVisited: set<string>
    ghost const initialLog: string
    /** Every link a merge appended to the queue during this run, in order. */
    ghost var merged: seq<string>
    /** Every URL appended to the visited log during this run, in order. */
    ghost var logged: seq<string>

    /**
     * The run's invariant: the queue filter holds exactly the links merges
     * appended, none twice and none visited at startup; the visited set is the
     * startup set plus the URLs logged during the run, none logged twice; and
     * the log is its startup text followed by one line per logged URL.
     */
    ghost predicate Valid()
      reads this`merged, this`queueFilter, this`logged, this`visited, this`visitedLog
    {
      && NoDuplicates(merged) && queueFilter == Elems(merged) && initialVisited !! Elems(merged)
      && NoDuplicates(logged) && initialVisited !! Elems(logged)
      && visited == initialVisited + Elems(logged)
      && visitedLog == initialLog + Storage.LineFile(logged)
    }

    /**
     * Startup: load the queue, warm the visited filter from the visited log, and
     * queue the start URL only when the loaded queue is empty. Neither the loaded
     * URLs nor the start URL go into the queue filter.
     */
    constructor (queueText: Option<string>, visitedText: Option<string>, startTime: int, minutes: int,
                 keyword: Option<string>, join: (string, string) -> string)
      ensures Valid() && !timeLimitReached
      ensures initialVisited == Storage.LoadVisited(Some(initialLog))
      ensures queue == InitialQueue(Storage.LoadQueue(queueText))
      ensures visited == Storage.LoadVisited(visitedText) && queueFilter == {}
      ensures queueFile == queueText && visitedLog == visitedText.GetOr("") && keywordMatches == ""
      ensures this.startTime == startTime && this.timeLimit == MinutesToMicros(minutes)
      ensures this.keyword == keyword && this.join == join
    {
      var loaded := Storage.LoadQueue(queueText);
      var warm := Storage.LoadVisited(visitedText);
      var log := visitedText.GetOr("");
      WarmStart(visitedText);
      EmptyRun(warm, log);
      queue := InitialQueue(loaded);
      visited := warm;
      queueFilter := {};
      queueFile := queueText;
      visitedLog := log;
      keywordMatches := "";
      timeLimitReached := false;
      this.startTime := startTime;
      this.timeLimit := MinutesToMicros(minutes);
      this.keyword := keyword;
      this.join := join;
      initialVisited := warm;
      initialLog := log;
      merged := [];
      logged := [];
    }

    /**
     * Warm-start completeness: when the startup log (which the constructor
     * loaded into the startup visited set) ended with a complete line
     * and every URL logged since is a one-line entry, reloading the visited log
     * gives back exactly the in-memory visited set.
     */
    lemma VisitedLogRestoresVisited()
      requires Valid() && Storage.EndsAtLineBoundary(initialLog)
      requires initialVisited == Storage.LoadVisited(Some(initialLog))
      requires forall i :: 0 <= i < |logged| ==> Storage.IsEntry(logged[i])
      ensures Storage.LoadVisited(Some(visitedLog)) == visited
    {
      Storage.VisitedRoundTrip(initialLog, logged);
    }

    /**
     * The inner loop over one result's links: a link is appended to the queue,
     * and added to the queue filter, iff it is in neither filter at that moment.
     * The set's iteration order is not modelled: any order may be taken.
     */
    method MergeLinks(links: set<string>) returns (added: seq<string>)
      requires Valid()
      modifies this`queue, this`queueFilter, this`merged
      ensures Valid()
      ensures queue == old(queue) + added && merged == old(merged) + added
      ensures Elems(added) == links - old(visited) - old(queueFilter) && NoDuplicates(added)
      ensures queueFilter == old(queueFilter) + Elems(added)
    {
      added := [];
      var rest := links;
      while rest != {}
        invariant Valid()
        invariant rest <= links
        invariant queue == old(queue) + added && merged == old(merged) + added
        invariant Elems(added) == (links - rest) - old(visited) - old(queueFilter)
        invariant queueFilter == old(queueFilter) + Elems(added)
        decreases rest
      {
        var link :| link in rest;
        if link !in visited && link !in queueFilter {
          NoDuplicatesAppend(merged, link);
          ElemsAppend(added, [link]);
          ElemsAppend(merged, [link]);
          queue := queue + [link];
          queueFilter := queueFilter + {link};
          merged := merged + [link];
          added := added + [link];
        }
        rest := rest - {link};
      }
      assert NoDuplicates(old(merged) + added);
      assert forall i :: 0 <= i < |added| ==> added[i] == (old(merged) + added)[|old(merged)| + i];
    }

    /** Mark a fetched URL visited; it is appended to the visited log only when it was not visited yet. */
    method MarkVisited(url: string)
      requires Valid()
      modifies this`visited, this`visitedLog, this`logged
      ensures Valid()
      ensures visited == old(visited) + {url}
      ensures url in old(visited) ==> visitedLog == old(visitedLog) && logged == old(logged)
      ensures url !in old(visited) ==>
                visitedLog == Storage.SaveVisited(old(visitedLog), url) && logged == old(logged) + [url]
    {
      if url !in visited {
        Storage.LineFileAppend(logged, url);
        NoDuplicatesAppend(logged, url);
        visited := visited + {url};
        visitedLog := Storage.SaveVisited(visitedLog, url);
        logged := logged + [url];
      }
    }

    /**
     * The `for` loop over a batch's results: merge each result's links, then
     * mark its URL visited, in result order.
     */
    method MergeResults(results: seq<Fetch.CrawlResult>) returns (appended: seq<string>, ghost pieces: seq<seq<string>>)
      requires Valid()
      modifies this`queue, this`queueFilter, this`merged, this`visited, this`visitedLog, this`logged
      ensures Valid()
      ensures queue == old(queue) + appended && merged == old(merged) + appended
      ensures appended == Concat(pieces) && MergedInOrder(results, pieces, old(visited), old(queueFilter))
      ensures Elems(appended) == Discovered(results, old(visited)) - old(queueFilter)
      ensures queueFilter == old(queueFilter) + Elems(appended)
      ensures visited == old(visited) + ResultUrls(results)
      ensures old(logged) <= logged
    {
      appended := [];
      pieces := [];
      for k := 0 to |results|
        invariant Valid()
        invariant queue == old(queue) + appended && merged == old(merged) + appended
        invariant MergedSoFar(results, k, pieces, appended, old(visited), old(queueFilter))
        invariant queueFilter == old(queueFilter) + Elems(appended)
        invariant visited == old(visited) + ResultUrls(results[..k])
        invariant old(logged) <= logged
      {
        ghost var before, earlier := appended, pieces;
        var added := MergeLinks(results[k].links);
        MarkVisited(results[k].url);
        appended := appended + added;
        pieces := pieces + [added];
        MergedInOrderStep(results, k, earlier, before, added, old(visited), old(queueFilter));
        AppendAssociative(old(queue), before, added);
        AppendAssociative(old(merged), before, added);
        ElemsAppend(before, added);
      }
      assert results[..|results|] == results;
      MergedInOrderIsDiscovered(results, pieces, old(visited), old(queueFilter));
    }

    /**
     * The body of the loop in `main` once the deadline check has passed: the
     * batch is the first `concurrency` entries, the rest stay at the front of
     * the queue ahead of every link appended now, every batch URL ends up
     * visited, and the queue file is rewritten.
     */
    method Step(tick: Tick) returns (batch: seq<string>, results: seq<Fetch.CrawlResult>, appended: seq<string>, ghost pieces: seq<seq<string>>)
      requires Valid() && queue != []
      modifies this`queue, this`queueFilter, this`merged, this`visited, this`visitedLog, this`logged,
               this`queueFile, this`keywordMatches
      ensures Valid()
      ensures var size := Min(Resources.CheckSystemResources(tick.mem, tick.cpu).concurrency, |old(queue)|);
              && batch == old(queue)[..size]
              && queue == old(queue)[size..] + appended
      ensures results == CrawlBatch(batch, tick.fetch, keyword, join)
      ensures merged == old(merged) + appended && old(logged) <= logged
      ensures Elems(appended) == Discovered(results, old(visited)) - old(queueFilter)
      ensures queueFilter == old(queueFilter) + Elems(appended)
      ensures appended == Concat(pieces)
      ensures MergedInOrder(results, pieces, old(visited), old(queueFilter))
      ensures visited == old(visited) + Elems(batch)
      ensures queueFile == Some(Storage.LineFile(queue))
      ensures keywordMatches == old(keywordMatches) + KeywordLines(results, keyword)
    {
      var schedule := Resources.CheckSystemResources(tick.mem, tick.cpu);
      var size := Min(schedule.concurrency, |queue|);
      batch := queue[..size];
      queue := queue[size..];
      results := CrawlBatch(batch, tick.fetch, keyword, join);
      keywordMatches := keywordMatches + KeywordLines(results, keyword);
      appended, pieces := MergeResults(results);
      CrawlBatchUrls(batch, tick.fetch, keyword, join);
      var text := Storage.SaveQueue(queue);
      queueFile := Some(text);
    }

    /**
     * One pass of the `while` loop of `main`: when the deadline has passed, set
     * the flag and change nothing else; otherwise run one batch, with all that
     * `Step` promises.
     */
    method Iterate(tick: Tick)
      returns (ran: bool, batch: seq<string>, results: seq<Fetch.CrawlResult>, appended: seq<string>,
               ghost pieces: seq<seq<string>>)
      requires Valid() && queue != [] && !timeLimitReached
      modifies this
      ensures Valid()
      ensures ran <==> tick.now - startTime <= timeLimit
      ensures timeLimitReached == !ran
      ensures !ran ==> unchanged(this`queue, this`visited, this`queueFilter, this`visitedLog, this`merged,
                                 this`logged, this`queueFile, this`keywordMatches)
      ensures ran ==> var size := Min(Resources.CheckSystemResources(tick.mem, tick.cpu).concurrency, |old(queue)|);
                      && batch == old(queue)[..size]
                      && queue == old(queue)[size..] + appended
      ensures ran ==> results == CrawlBatch(batch, tick.fetch, keyword, join)
      ensures ran ==> merged == old(merged) + appended
      ensures ran ==> Elems(appended) == Discovered(results, old(visited)) - old(queueFilter)
      ensures ran ==> queueFilter == old(queueFilter) + Elems(appended)
      ensures ran ==> appended == Concat(pieces) && MergedInOrder(results, pieces, old(visited), old(queueFilter))
      ensures ran ==> visited == old(visited) + Elems(batch)
      ensures ran ==> queueFile == Some(Storage.LineFile(queue))
      ensures ran ==> keywordMatches == old(keywordMatches) + KeywordLines(results, keyword)
      ensures old(logged) <= logged && old(merged) <= merged && old(queueFilter) <= queueFilter
    {
      if tick.now - startTime > timeLimit {
        timeLimitReached := true;
        return false, [], [], [], [];
      }
      batch, results, appended, pieces := Step(tick);
      ran := true;
    }

    /** The parts of the state the loop changes, as one value. */
    ghost function Now(): Snapshot
      reads this`queue, this`visited, this`queueFilter, this`merged, this`keywordMatches
    {
      Snapshot(queue, visited, queueFilter, merged, keywordMatches)
    }

    /**
     * A pass of the loop as the run records it: `Iterate` on tick `n`, the next
     * one, and, when it ran a batch, the record of the run extended by that
     * batch, the queue it left and the links its merge appended.
     */
    method RecordedPass(ticks: seq<Tick>, n: nat, ghost batches: seq<seq<string>>, ghost queues: seq<seq<string>>,
                        ghost appendeds: seq<seq<string>>, ghost start: Snapshot)
      returns (ran: bool, ghost batches': seq<seq<string>>, ghost queues': seq<seq<string>>,
               ghost appendeds': seq<seq<string>>)
      requires Valid() && queue != [] && !timeLimitReached && n == |batches| < |ticks|
      requires RunSoFar(ticks, batches, queues, appendeds, startTime, timeLimit, start, Now(), keyword, join)
      modifies this
      ensures Valid()
      ensures ran <==> ticks[|batches|].now - startTime <= timeLimit
      ensures timeLimitReached == !ran
      ensures |batches'| == |batches| + (if ran then 1 else 0)
      ensures RunSoFar(ticks, batches', queues', appendeds', startTime, timeLimit, start, Now(), keyword, join)
      ensures ran ==> queueFile == Some(Storage.LineFile(queue))
      ensures !ran ==> queueFile == old(queueFile) && queue == old(queue)
      ensures old(logged) <= logged
    {
      ghost var now := Now();
      var batch, results, appended;
      ghost var pieces;
      ran, batch, results, appended, pieces := Iterate(ticks[n]);
      batches', queues', appendeds' := batches, queues, appendeds;
      if ran {
        RunSoFarStep(ticks, batches, queues, appendeds, startTime, timeLimit, start, now, keyword, join,
                     batch, appended, Now());
        batches', queues', appendeds' := batches + [batch], queues + [queue], appendeds + [appended];
      }
    }

    /**
     * The `while` loop of `main`: iterate while the queue is non-empty and the
     * deadline has not been seen, for at most as many iterations as there are
     * ticks. Each iteration first checks the deadline, and only a tick within it
     * runs a batch. `batches[k]` is the batch tick k ran, taken from the front of
     * `queues[k]`, the queue before it, and `appendeds[k]` the links its merge
     * appended (`RunSoFar`); the tick that found the deadline passed (if any) is
     * the last one taken. No link is appended twice during the run, and once a
     * batch has run the queue file holds the queue.
     */
    method Run(ticks: seq<Tick>)
      returns (iterations: nat, ghost batches: seq<seq<string>>, ghost queues: seq<seq<string>>,
               ghost appendeds: seq<seq<string>>)
      requires Valid() && !timeLimitReached
      modifies this
      ensures Valid()
      ensures iterations <= |ticks|
      ensures queue == [] || timeLimitReached || iterations == |ticks|
      ensures |batches| == iterations - (if timeLimitReached then 1 else 0)
      ensures timeLimitReached ==> ticks[|batches|].now - startTime > timeLimit
      ensures RunSoFar(ticks, batches, queues, appendeds, startTime, timeLimit, old(Now()), Now(), keyword, join)
      ensures NoDuplicates(Concat(appendeds))
      ensures |batches| > 0 ==> queueFile == Some(Storage.LineFile(queue))
      ensures |batches| == 0 ==> queueFile == old(queueFile)
      ensures old(logged) <= logged
    {
      iterations := 0;
      batches, queues, appendeds := [], [queue], [];
      assert old(keywordMatches) + "" == old(keywordMatches) && old(merged) + [] == old(merged);
      while queue != [] && !timeLimitReached && iterations < |ticks|
        invariant Valid()
        invariant iterations <= |ticks|
        invariant |batches| == iterations - (if timeLimitReached then 1 else 0)
        invariant timeLimitReached ==> ticks[|batches|].now - startTime > timeLimit
        invariant RunSoFar(ticks, batches, queues, appendeds, startTime, timeLimit, old(Now()), Now(), keyword, join)
        invariant |batches| > 0 ==> queueFile == Some(Storage.LineFile(queue))
        invariant |batches| == 0 ==> queueFile == old(queueFile)
        invariant old(logged) <= logged
        decreases |ticks| - iterations
      {
        var ran;
        ran, batches, queues, appendeds := RecordedPass(ticks, iterations, batches, queues, appendeds, old(Now()));
        iterations := iterations + 1;
      }
      RunAppendsDistinct(ticks, batches, queues, appendeds, startTime, timeLimit, old(Now()), Now(), keyword, join);
    }
  }
}

=== FILE: storage.dfy ===
/**
 * The crawler's local files, each modelled by its text: the frontier file
 * `data/queue.txt` (rewritten after every batch), the visited log
 * `data/visited_links.txt` (appended to), the keyword-match file, and the
 * names of the raw page files. An absent file is `None`.
 */
module Storage {
  import opened Wrappers
  import opened Text

  /** A character at which reading a text file in Python starts a new line. */
  predicate IsLineBreak(c: char) {
    c == '\n' || c == '\r'
  }

  predicate NoLineBreak(s: string) {
    forall i :: 0 <= i < |s| ==> !IsLineBreak(s[i])
  }

  /** A URL that survives a save and a load unchanged: non-blank, one line, no surrounding whitespace. */
  predicate IsEntry(u: string) {
    u != [] && NoLineBreak(u) && !IsSpace(u[0]) && !IsSpace(u[|u| - 1])
  }

  /** A file whose last line is complete (or an empty file): appending starts a new line. */
  predicate EndsAtLineBoundary(s: string) {
    s == [] || s[|s| - 1] == '\n'
  }

  /** The text of a file holding `entries`, each followed by a newline. */
  function LineFile(entries: seq<string>): string {
    if entries == [] then "" else entries[0] + "\n" + LineFile(entries[1..])
  }

  /** Writing one more entry extends the file text by that entry's line. */
  lemma {:induction false} LineFileAppend(entries: seq<string>, u: string)
    ensures LineFile(entries + [u]) == LineFile(entries) + u + "\n"
  {
    if entries == [] {
      assert [u][1..] == [];
    } else {
      assert (entries + [u])[1..] == entries[1..] + [u];
      LineFileAppend(entries[1..], u);
    }
  }

  /** `save_queue`: the file is truncated and each URL is written on its own line, in order. */
  method SaveQueue(queue: seq<string>) returns (contents: string)
    ensures contents == LineFile(queue)
    ensures EndsAtLineBoundary(contents)
  {
    contents := "";
    for i := 0 to |queue|
      invariant contents == LineFile(queue[..i])
      invariant EndsAtLineBoundary(contents)
    {
      assert queue[..i + 1] == queue[..i] + [queue[i]];
      LineFileAppend(queue[..i], queue[i]);
      contents := contents + queue[i] + "\n";
    }
    assert queue[..|queue|] == queue;
  }

  /**
   * The text between line breaks, in order. Python's universal-newline reading
   * ends a line at "\n", "\r" or "\r\n"; splitting at every "\n" and every "\r"
   * gives the same lines plus blank ones, and the loaders drop blank lines.
   */
  function Split(s: string): (r: seq<string>)
    ensures |r| >= 1
  {
    if s == [] then [""]
    else
      var rest := Split(s[1..]);
      if IsLineBreak(s[0]) then [""] + rest else [[s[0]] + rest[0]] + rest[1..]
  }

  /** One line as the loaders keep it: stripped, or nothing when it is blank. */
  function CleanLine(line: string): seq<string> {
    var t := Strip(line);
    if t == "" then [] else [t]
  }

  /** `[line.strip() for line in lines if line.strip()]`. */
  function Clean(lines: seq<string>): seq<string> {
    if lines == [] then [] else CleanLine(lines[0]) + Clean(lines[1..])
  }

  /** `load_queue` and the list behind `load_visited`: the stripped non-blank lines, or [] without a file. */
  function LoadLines(file: Option<string>): (r: seq<string>)
    ensures forall i :: 0 <= i < |r| ==> IsEntry(r[i])
  {
    match file
    case None => []
    case Some(text) =>
      SplitHasNoLineBreak(text);
      CleanGivesEntries(Split(text));
      Clean(Split(text))
  }

  /** `load_queue`: every URL it returns is an entry, and a missing file gives no URL. */
  function LoadQueue(file: Option<string>): (r: seq<string>)
    ensures file == None ==> r == []
    ensures forall i :: 0 <= i < |r| ==> IsEntry(r[i])
  {
    LoadLines(file)
  }

  /** `load_visited`: the set of stripped non-blank lines of the visited log. */
  function LoadVisited(file: Option<string>): (r: set<string>)
    ensures file == None ==> r == {}
    ensures forall u :: u in r ==> IsEntry(u)
  {
    Elems(LoadLines(file))
  }

  /** An entry followed by a newline splits off as one line. */
  lemma {:induction false} SplitEntry(u: string, rest: string)
    requires NoLineBreak(u)
    ensures Split(u + "\n" + rest) == [u] + Split(rest)
  {
    if u == [] {
      assert (u + "\n" + rest)[1..] == rest;
    } else {
      assert (u + "\n" + rest)[1..] == u[1..] + "\n" + rest;
      SplitEntry(u[1..], rest);
      assert [u[0]] + u[1..] == u;
    }
  }

  /** Splitting a file of entries gives the entries back, then the empty text after the last newline. */
  lemma {:induction false} SplitLineFile(q: seq<string>)
    requires forall i :: 0 <= i < |q| ==> NoLineBreak(q[i])
    ensures Split(LineFile(q)) == q + [""]
  {
    if q != [] {
      SplitEntry(q[0], LineFile(q[1..]));
      SplitLineFile(q[1..]);
      assert q == [q[0]] + q[1..];
    }
  }

  lemma {:induction false} CleanAppend(a: seq<string>, b: seq<string>)
    ensures Clean(a + b) == Clean(a) + Clean(b)
  {
    if a == [] {
      assert a + b == b;
    } else {
      assert (a + b)[0] == a[0] && (a + b)[1..] == a[1..] + b;
      CleanAppend(a[1..], b);
      calc {
        Clean(a + b);
        CleanLine(a[0]) + Clean(a[1..] + b);
        CleanLine(a[0]) + (Clean(a[1..]) + Clean(b));
      }
    }
  }

  lemma {:induction false} CleanOfEntries(q: seq<string>)
    requires forall i :: 0 <= i < |q| ==> IsEntry(q[i])
    ensures Clean(q) == q
  {
    if q != [] {
      CleanOfEntries(q[1..]);
      assert q == [q[0]] + q[1..];
    }
  }

  /** Restart round trip: loading what `save_queue` wrote gives the same queue, in order. */
  lemma {:induction false} QueueRoundTrip(q: seq<string>)
    requires forall i :: 0 <= i < |q| ==> IsEntry(q[i])
    ensures LoadQueue(Some(LineFile(q))) == q
  {
    assert forall i :: 0 <= i < |q| ==> NoLineBreak(q[i]);
    SplitLineFile(q);
    CleanAppend(q, [""]);
    CleanBlank();
    CleanOfEntries(q);
    assert Clean(Split(LineFile(q))) == q + [];
  }

  /** No piece of a split holds a line break. */
  lemma {:induction false} SplitHasNoLineBreak(s: string)
    ensures forall k :: 0 <= k < |Split(s)| ==> NoLineBreak(Split(s)[k])
  {
    if s != [] {
      SplitHasNoLineBreak(s[1..]);
      var rest := Split(s[1..]);
      if !IsLineBreak(s[0]) {
        var first := [s[0]] + rest[0];
        assert NoLineBreak(first) by {
          forall i | 0 <= i < |first| ensures !IsLineBreak(first[i]) {
            if i > 0 {
              assert first[i] == rest[0][i - 1];
            }
          }
        }
        assert Split(s) == [first] + rest[1..];
      }
    }
  }

  /** Stripping a line without line breaks leaves none. */
  lemma StripKeepsNoLineBreak(line: string)
    requires NoLineBreak(line)
    ensures NoLineBreak(Strip(line))
  {
    var u := TrimStart(line);
    var t := TrimEnd(u);
    assert Strip(line) == t;
    forall i | 0 <= i < |t| ensures !IsLineBreak(t[i]) {
      assert t[i] == u[i] == line[|line| - |u| + i];
    }
  }

  /** A line that holds no line break is kept, if at all, as an entry. */
  lemma CleanLineGivesEntry(line: string)
    requires NoLineBreak(line)
    ensures forall x :: x in CleanLine(line) ==> IsEntry(x)
  {
    var t := Strip(line);
    if t != [] {
      StripKeepsNoLineBreak(line);
      assert CleanLine(line) == [t];
    }
  }

  /** Everything a load returns is an entry, whatever the file held. */
  lemma {:induction false} CleanGivesEntries(lines: seq<string>)
    requires forall k :: 0 <= k < |lines| ==> NoLineBreak(lines[k])
    ensures forall x :: x in Clean(lines) ==> IsEntry(x)
  {
    if lines != [] {
      CleanGivesEntries(lines[1..]);
      CleanLineGivesEntry(lines[0]);
      assert Clean(lines) == CleanLine(lines[0]) + Clean(lines[1..]);
    }
  }

  /** Loading is stable: saving what was loaded and loading again gives the same queue. */
  lemma LoadedQueueSurvivesRestart(file: Option<string>)
    ensures forall x :: x in LoadQueue(file) ==> IsEntry(x)
    ensures LoadQueue(Some(LineFile(LoadQueue(file)))) == LoadQueue(file)
  {
    if file.Some? {
      SplitHasNoLineBreak(file.value);
      CleanGivesEntries(Split(file.value));
    }
    QueueRoundTrip(LoadQueue(file));
  }

  /** A missing file and an empty one both load as nothing. */
  lemma EmptyAndMissingFilesAgree()
    ensures LoadQueue(None) == LoadQueue(Some("")) == []
    ensures LoadVisited(None) == LoadVisited(Some("")) == {}
  {
    assert Split("") == [""];
    assert Strip("") == "";
  }

  /** A leading line break splits off an empty line. */
  lemma {:induction false} SplitConsBreak(c: char, s: string)
    requires IsLineBreak(c)
    ensures Split([c] + s) == [""] + Split(s)
  {
    assert ([c] + s)[0] == c && ([c] + s)[1..] == s;
  }

  /** Any other leading character joins the first line. */
  lemma {:induction false} SplitConsChar(c: char, s: string)
    requires !IsLineBreak(c)
    ensures Split([c] + s) == [[c] + Split(s)[0]] + Split(s)[1..]
  {
    assert ([c] + s)[0] == c && ([c] + s)[1..] == s;
  }

  /** Putting an empty line in front of the lines of a log, with what follows its last line. */
  lemma PrependEmptyLine(a: seq<string>, st: seq<string>)
    requires |a| >= 2
    ensures |[""] + a| >= 2 && ([""] + a)[|a|] == a[|a| - 1]
    ensures [""] + (a[..|a| - 1] + st) == ([""] + a)[..|a|] + st
  {
    assert ([""] + a)[..|a|] == [""] + a[..|a| - 1];
  }

  /** Joining a character to the first line of a log, with what follows its last line. */
  lemma JoinFirstLine(c: char, a: seq<string>, st: seq<string>)
    requires |a| >= 2
    ensures var a' := [[c] + a[0]] + a[1..];
            var r := a[..|a| - 1] + st;
            && |a'| == |a| && a'[|a| - 1] == a[|a| - 1]
            && [[c] + r[0]] + r[1..] == a'[..|a| - 1] + st
  {
    var a' := [[c] + a[0]] + a[1..];
    var r := a[..|a| - 1] + st;
    assert r[0] == a[0] && r[1..] == a[1..|a| - 1] + st;
    assert a'[..|a| - 1] == [[c] + a[0]] + a[1..|a| - 1];
  }

  /** The inductive step of `SplitAfterBreak` for a leading line break. */
  lemma {:induction false} SplitAfterBreakStepBreak(c: char, log: string, t: string)
    requires IsLineBreak(c)
    requires |Split(log)| >= 2 && Split(log)[|Split(log)| - 1] == ""
    requires Split(log + t) == Split(log)[..|Split(log)| - 1] + Split(t)
    ensures |Split([c] + log)| >= 2 && Split([c] + log)[|Split([c] + log)| - 1] == ""
    ensures Split([c] + log + t) == Split([c] + log)[..|Split([c] + log)| - 1] + Split(t)
  {
    SplitConsBreak(c, log);
    assert [c] + log + t == [c] + (log + t);
    SplitConsBreak(c, log + t);
    PrependEmptyLine(Split(log), Split(t));
  }

  /** The inductive step of `SplitAfterBreak` for any other leading character. */
  lemma {:induction false} SplitAfterBreakStepChar(c: char, log: string, t: string)
    requires !IsLineBreak(c)
    requires |Split(log)| >= 2 && Split(log)[|Split(log)| - 1] == ""
    requires Split(log + t) == Split(log)[..|Split(log)| - 1] + Split(t)
    ensures |Split([c] + log)| >= 2 && Split([c] + log)[|Split([c] + log)| - 1] == ""
    ensures Split([c] + log + t) == Split([c] + log)[..|Split([c] + log)| - 1] + Split(t)
  {
    SplitConsChar(c, log);
    assert [c] + log + t == [c] + (log + t);
    SplitConsChar(c, log + t);
    JoinFirstLine(c, Split(log), Split(t));
  }

  /** Splitting text that ends in a line break: its last piece is empty and is continued by what follows. */
  lemma {:induction false} SplitAfterBreak(log: string, t: string)
    requires log != [] && IsLineBreak(log[|log| - 1])
    ensures |Split(log)| >= 2 && Split(log)[|Split(log)| - 1] == ""
    ensures Split(log + t) == Split(log)[..|Split(log)| - 1] + Split(t)
  {
    var c := log[0];
    assert log == [c] + log[1..];
    if |log| == 1 {
      SplitConsBreak(c, []);
      SplitConsBreak(c, t);
      assert log + t == [c] + t;
    } else {
      SplitAfterBreak(log[1..], t);
      if IsLineBreak(c) {
        SplitAfterBreakStepBreak(c, log[1..], t);
      } else {
        SplitAfterBreakStepChar(c, log[1..], t);
      }
    }
  }

  /** A blank line is dropped. */
  lemma CleanBlank()
    ensures Clean([""]) == []
  {
    assert TrimStart("") == "" && TrimEnd("") == "";
    assert CleanLine("") == [];
    assert [""][1..] == [];
    assert Clean([""]) == CleanLine("") + Clean([]);
  }

  /** Loading a file that was appended to at a line boundary: the old lines, then the new ones. */
  lemma LoadLinesAppend(log: string, t: string)
    requires EndsAtLineBoundary(log)
    ensures LoadLines(Some(log + t)) == LoadLines(Some(log)) + LoadLines(Some(t))
  {
    if log == [] {
      assert log + t == t;
      assert Split("") == [""];
      CleanBlank();
    } else {
      SplitAfterBreak(log, t);
      var a := Split(log);
      var front := a[..|a| - 1];
      assert a == front + [""];
      CleanAppend(front, [""]);
      CleanBlank();
      CleanAppend(front, Split(t));
      assert Clean(Split(log + t)) == Clean(front) + Clean(Split(t));
      assert Clean(a) == Clean(front);
    }
  }

  /** Appending one entry's line to a log that ends at a line boundary adds exactly that entry. */
  lemma AppendEntryLoads(log: string, url: string)
    requires EndsAtLineBoundary(log) && IsEntry(url)
    ensures LoadVisited(Some(log + url + "\n")) == LoadVisited(Some(log)) + {url}
  {
    assert [url][1..] == [];
    assert LineFile([url]) == url + "\n";
    assert log + url + "\n" == log + LineFile([url]);
    VisitedRoundTrip(log, [url]);
    assert Elems([url]) == {url};
  }

  /** `save_visited`: appends the URL and a newline to the visited log. */
  function SaveVisited(log: string, url: string): (r: string)
    ensures StartsWith(r, log) && EndsAtLineBoundary(r)
    ensures EndsAtLineBoundary(log) && IsEntry(url) ==>
              LoadVisited(Some(r)) == LoadVisited(Some(log)) + {url}
  {
    var r := log + url + "\n";
    assert EndsAtLineBoundary(log) && IsEntry(url) ==>
             LoadVisited(Some(r)) == LoadVisited(Some(log)) + {url} by {
      if EndsAtLineBoundary(log) && IsEntry(url) {
        AppendEntryLoads(log, url);
      }
    }
    r
  }

  /** Warm start round trip: the visited set loaded from a log of entries holds exactly those entries. */
  lemma VisitedRoundTrip(log: string, us: seq<string>)
    requires EndsAtLineBoundary(log)
    requires forall i :: 0 <= i < |us| ==> IsEntry(us[i])
    ensures LoadVisited(Some(log + LineFile(us))) == LoadVisited(Some(log)) + Elems(us)
  {
    LoadLinesAppend(log, LineFile(us));
    QueueRoundTrip(us);
    ElemsAppend(LoadLines(Some(log)), us);
  }

  /** Characters kept in a raw page's file name: ASCII letters and digits, `_`, `-` and `.`. */
  predicate IsFilenameChar(c: char) {
    ('a' <= c <= 'z') || ('A' <= c <= 'Z') || ('0' <= c <= '9') || c == '_' || c == '-' || c == '.'
  }

  /** `''.join(c for c in url if c.isalnum() or c in ('_', '-', '.'))`. */
  function KeepFilenameChars(s: string): (r: string)
    ensures forall i :: 0 <= i < |r| ==> IsFilenameChar(r[i])
    ensures forall c :: c in r <==> c in s && IsFilenameChar(c)
    ensures |r| <= |s|
  {
    if s == [] then []
    else (if IsFilenameChar(s[0]) then [s[0]] else []) + KeepFilenameChars(s[1..])
  }

  /** Filtering text made only of kept characters changes nothing. */
  lemma {:induction false} KeepFilenameCharsIdentity(s: string)
    requires forall i :: 0 <= i < |s| ==> IsFilenameChar(s[i])
    ensures KeepFilenameChars(s) == s
  {
    if s != [] {
      KeepFilenameCharsIdentity(s[1..]);
      assert [s[0]] + s[1..] == s;
    }
  }

  const MaxFilenameLength: nat := 100

  /**
   * The file name of a saved raw page: the URL's kept characters, cut to 100.
   * It is a prefix of the filtered URL, and all of it unless that is longer than 100.
   */
  function SanitizeFilename(url: string): (r: string)
    ensures forall i :: 0 <= i < |r| ==> IsFilenameChar(r[i])
    ensures |r| <= MaxFilenameLength
    ensures StartsWith(KeepFilenameChars(url), r)
    ensures |r| < MaxFilenameLength ==> r == KeepFilenameChars(url)
  {
    var f := KeepFilenameChars(url);
    if |f| <= MaxFilenameLength then f else f[..MaxFilenameLength]
  }

  /** Sanitising a sanitised name leaves it unchanged. */
  lemma SanitizeIdempotent(url: string)
    ensures SanitizeFilename(SanitizeFilename(url)) == SanitizeFilename(url)
  {
    KeepFilenameCharsIdentity(SanitizeFilename(url));
  }

  const RawPagesDir: string := "data/raw_pages/"

  /**
   * The path a page is saved to: the sanitised URL between `data/raw_pages/`
   * and `.html`. The name part holds no `/`, so the file stays inside the directory.
   */
  function RawPagePath(url: string): (r: string)
    ensures StartsWith(r, RawPagesDir) && EndsWith(r, ".html")
    ensures |r| == |RawPagesDir| + |SanitizeFilename(url)| + 5
    ensures r[|RawPagesDir|..|r| - 5] == SanitizeFilename(url)
    ensures forall i :: |RawPagesDir| <= i < |r| ==> r[i] != '/'
  {
    var name := SanitizeFilename(url);
    var r := RawPagesDir + name + ".html";
    assert r[..|RawPagesDir|] == RawPagesDir;
    assert r[|RawPagesDir|..|r| - 5] == name;
    assert r[|r| - 5..] == ".html";
    assert forall i :: |RawPagesDir| <= i < |RawPagesDir| + |name| ==> r[i] == name[i - |RawPagesDir|];
    r
  }

  lemma {:induction false} KeepFilenameCharsAppend(a: string, b: string)
    ensures KeepFilenameChars(a + b) == KeepFilenameChars(a) + KeepFilenameChars(b)
  {
    if a == [] {
      assert a + b == b;
    } else {
      assert (a + b)[0] == a[0] && (a + b)[1..] == a[1..] + b;
      KeepFilenameCharsAppend(a[1..], b);
    }
  }

  /**
   * A character the filter drops does not distinguish file names: the URLs
   * `a + [c] + b` and `a + b` share one raw page file, and the later page
   * overwrites the earlier one.
   */
  lemma DroppedCharacterCollides(a: string, c: char, b: string)
    requires !IsFilenameChar(c)
    ensures RawPagePath(a + [c] + b) == RawPagePath(a + b)
  {
    assert [c][1..] == [];
    assert KeepFilenameChars([c]) == [];
    KeepFilenameCharsAppend(a, [c]);
    assert KeepFilenameChars(a + [c]) == KeepFilenameChars(a);
    KeepFilenameCharsAppend(a + [c], b);
    KeepFilenameCharsAppend(a, b);
    assert KeepFilenameChars(a + [c] + b) == KeepFilenameChars(a + b);
  }

  /** The line `save_keyword_url` appends to `data/keyword_matches.txt`. */
  function KeywordLine(url: string, keyword: string): (r: string)
    ensures StartsWith(r, url) && EndsAtLineBoundary(r)
    ensures OccursAt(r, " (Keyword: " + keyword + ")", |url|)
    ensures |r| == |url| + |keyword| + 13
  {
    var r := url + " (Keyword: " + keyword + ")\n";
    assert r[..|url|] == url;
    assert r[|url|..|url| + |keyword| + 12] == " (Keyword: " + keyword + ")";
    r
  }
}

=== FILE: text.dfy ===
/**
 * String helpers shared by the crawler model: the Python `str` operations the
 * crawler relies on (`strip`, `lower`, `in`, `startswith`, `endswith`, `str(int)`).
 */
module Text {

  /** The characters for which Python's `str.isspace()` holds; `str.strip()` removes these. */
  predicate IsSpace(c: char) {
    || c == ' '
    || ('\t' <= c <= '\r')
    || ('\U{001C}' <= c <= '\U{001F}')
    || c == '\U{0085}' || c == '\U{00A0}' || c == '\U{1680}'
    || ('\U{2000}' <= c <= '\U{200A}')
    || c == '\U{2028}' || c == '\U{2029}' || c == '\U{202F}' || c == '\U{205F}' || c == '\U{3000}'
  }

  /** `s` with its leading whitespace removed. */
  function TrimStart(s: string): (r: string)
    ensures |r| <= |s| && r == s[|s| - |r|..]
    ensures r == [] || !IsSpace(r[0])
    ensures forall i :: 0 <= i < |s| - |r| ==> IsSpace(s[i])
  {
    if s != [] && IsSpace(s[0]) then TrimStart(s[1..]) else s
  }

  /** `s` with its trailing whitespace removed. */
  function TrimEnd(s: string): (r: string)
    ensures |r| <= |s| && r == s[..|r|]
    ensures r == [] || !IsSpace(r[|r| - 1])
    ensures forall i :: |r| <= i < |s| ==> IsSpace(s[i])
  {
    if s != [] && IsSpace(s[|s| - 1]) then TrimEnd(s[..|s| - 1]) else s
  }

  /** Python's `s.strip()`: only whitespace is removed, and only at the two ends. */
  function Strip(s: string): (r: string)
    ensures Contains(s, r)
    ensures r == [] || (!IsSpace(r[0]) && !IsSpace(r[|r| - 1]))
    ensures s != [] && !IsSpace(s[0]) && !IsSpace(s[|s| - 1]) ==> r == s
  {
    var t := TrimStart(s);
    var r := TrimEnd(t);
    assert r == s[|s| - |t|..][..|r|] == s[|s| - |t|..|s| - |t| + |r|];
    assert OccursAt(s, r, |s| - |t|);
    r
  }

  /** Python's `c.lower()` for ASCII letters. */
  function LowerChar(c: char): char {
    if 'A' <= c <= 'Z' then (c as int + 32) as char else c
  }

  /** Python's `s.lower()`, character by character. */
  function Lower(s: string): (r: string)
    ensures |r| == |s|
    ensures forall i :: 0 <= i < |s| ==> r[i] == LowerChar(s[i])
  {
    seq(|s|, i requires 0 <= i < |s| => LowerChar(s[i]))
  }

  /** `sub` occurs in `s` starting at index `i`. */
  predicate OccursAt(s: string, sub: string, i: int) {
    0 <= i && i + |sub| <= |s| && s[i..i + |sub|] == sub
  }

  /** Python's `sub in s`. */
  predicate Contains(s: string, sub: string) {
    exists i | 0 <= i <= |s| - |sub| :: OccursAt(s, sub, i)
  }

  /** Python's `s.startswith(p)`. */
  predicate StartsWith(s: string, p: string) {
    |p| <= |s| && s[..|p|] == p
  }

  /** Python's `s.endswith(p)`. */
  predicate EndsWith(s: string, p: string) {
    |p| <= |s| && s[|s| - |p|..] == p
  }

  /** Every string contains the empty string. */
  lemma ContainsEmpty(s: string)
    ensures Contains(s, "")
  {
    assert OccursAt(s, "", 0);
  }

  /** An occurrence inside a part is an occurrence in every string that contains the part. */
  lemma ContainsTransitive(whole: string, part: string, sub: string)
    requires Contains(whole, part) && Contains(part, sub)
    ensures Contains(whole, sub)
  {
    var i :| 0 <= i <= |whole| - |part| && OccursAt(whole, part, i);
    var j :| 0 <= j <= |part| - |sub| && OccursAt(part, sub, j);
    forall k | 0 <= k < |sub|
      ensures whole[i + j + k] == sub[k]
    {
      assert sub[k] == part[j + k] == whole[i + j + k];
    }
    assert whole[i + j..i + j + |sub|] == sub;
    assert OccursAt(whole, sub, i + j);
  }

  /** `a`, `b` and `c` each occur in their concatenation. */
  lemma ContainsParts(a: string, b: string, c: string)
    ensures Contains(a + b + c, a) && Contains(a + b + c, b) && Contains(a + b + c, c)
  {
    var w := a + b + c;
    assert w[0..|a|] == a;
    assert OccursAt(w, a, 0);
    assert w[|a|..|a| + |b|] == b;
    assert OccursAt(w, b, |a|);
    assert w[|a| + |b|..|w|] == c;
    assert OccursAt(w, c, |a| + |b|);
  }

  /** The elements of a sequence, as a set. */
  function Elems<T>(s: seq<T>): set<T> {
    set x | x in s
  }

  lemma ElemsAppend<T>(a: seq<T>, b: seq<T>)
    ensures Elems(a + b) == Elems(a) + Elems(b)
  {
  }

  /** The decimal digit character for `d`. */
  function DigitChar(d: nat): char
    requires d < 10
  {
    "0123456789"[d]
  }

  /** The value of a decimal digit character. */
  function DigitValue(c: char): nat {
    if '0' <= c <= '9' then c as int - '0' as int else 0
  }

  /** Python's `str(n)` for a non-negative integer: its decimal digits, without leading zeros. */
  function NatToDecimal(n: nat): (r: string)
    ensures r != []
    ensures forall i :: 0 <= i < |r| ==> '0' <= r[i] <= '9'
  {
    if n < 10 then [DigitChar(n)] else NatToDecimal(n / 10) + [DigitChar(n % 10)]
  }

  /** The number a string of decimal digits denotes. */
  function DecimalValue(s: string): nat {
    if s == [] then 0 else 10 * DecimalValue(s[..|s| - 1]) + DigitValue(s[|s| - 1])
  }

  /** Reading back the decimal rendering of `n` gives `n`. */
  lemma {:induction false} DecimalRoundTrip(n: nat)
    ensures DecimalValue(NatToDecimal(n)) == n
  {
    var r := NatToDecimal(n);
    if n < 10 {
      assert r[..0] == [];
    } else {
      DecimalRoundTrip(n / 10);
      assert r[..|r| - 1] == NatToDecimal(n / 10);
    }
  }

  /** Distinct numbers have distinct decimal renderings. */
  lemma DecimalInjective(m: nat, n: nat)
    requires NatToDecimal(m) == NatToDecimal(n)
    ensures m == n
  {
    DecimalRoundTrip(m);
    DecimalRoundTrip(n);
  }
}

=== FILE: wrappers.dfy ===
/** Optional values: a file that may be absent, a keyword that may not be given. */
module Wrappers {

  datatype Option<+T> = None | Some(value: T) {

    /** The wrapped value, or `default` when there is none. */
    function GetOr(default: T): T {
      match this
      case Some(v) => v
      case None => default
    }
  }
}
